=== FILE: README.md ===
# Redilock lock protocol in Dafny

Redilock is a client-side handle for a distributed lock kept in Redis. One key
holds a hash from holder identifier (`clientNo`) to a reentrancy count, with a
lease (a Redis time-to-live) on the key. `Lock` runs a Lua script that the
store executes atomically. The script has three outcomes: the key was free and
is now held (`-100`), the caller already held it and its count went up
(`-101`), or somebody else holds it and the reply is the remaining lease. On a
third-outcome reply, `Lock` sleeps and retries until its retry limit is spent.
`UnLock` resets the handle and deletes the key.

The model has these modules:

- `Common` (common.dfy): error values, `Option` and `Result`.
- `LockStore` (lock_store.dfy): the store as a map from key to `Entry(holders, expiry)`. It also holds the Lua script as one pure transition `Script(store, key, ttlMs, clientNo)`, along with PTTL and PEXPIRE.
- `Handle` (handle.dfy): the `Redilock` struct, `NewRedilock`, `SetMaxRetryCount`, `reset` and `UnLock`.
- `Retry` (retry.dfy): the decision `lock` makes on each script reply.
- `Locking` (locking.dfy): a single attempt of `lock`, then `LockSpec`, which is the source's recursion written out, then `Lock`, the same thing as a loop.
- `Protocol` (protocol.dfy): properties of whole runs. These cover the retry budget within one call and across calls, what a successful call leaves in the store, and the fact that release is global.

Time does not pass in the model. An entry's expiry is the remaining lease that
PTTL would report when the script runs. A `Lock` call is given one
`Observation` per attempt: either `Unreachable`, or the store as other clients
and lease expiry have left it. If the observations run out while the call is
still retrying, the call has not returned yet (`Blocked`).

Two behaviours of `lock` are easy to misread. The model keeps both:

- The guard at src/redilock.go:97 is `maxRetryCount > 0`. A limit of `0` therefore retries forever, like `-1`, and does not fail at once. The field comment at src/redilock.go:19 mentions only `-1` as the value that retries until the lock is acquired. `Retry.ZeroLimitDecidesLikeUnbounded` and `Protocol.ZeroLimitRunsLikeUnbounded` state this.
- `currentRetryCount` goes back to zero only in `reset`, which `UnLock` calls. A successful `Lock` does not reset it, so spent retries carry over to later `Lock` calls on the same handle. `Protocol.ExhaustedBudgetCarriesOver` and `Protocol.SuccessfulRetriesConsumeBudget` state this.

## Model

| member | source | states |
|---|---|---|
| LockStore.Pttl | src/redilock.go:67 | The reply for a key held by someone else is never below -1. It is -1 exactly when the key has no lease, and otherwise it is the remaining lease. |
| LockStore.Pexpire | src/redilock.go:60 | Setting the lease changes only the given key. A non-positive lease removes the key; a positive one becomes the key's expiry. |
| LockStore.Script | src/redilock.go:58-67 | Absent key with a positive lease: created with holders exactly `{clientNo: 1}` and that lease, reply -100. Absent key with a non-positive lease: reply -100 but the store is unchanged, because PEXPIRE deletes the key it just created. Caller already a holder: its count goes up by exactly 1, other holders and the lease are unchanged, reply -101. The one exception is a count already at the int64 maximum, which is an error. Held by another: store unchanged, reply is the remaining lease. No key other than KEYS[1] changes. |
| LockStore.ReplyIdentifiesBranch | src/redilock.go:58-67 | The reply alone identifies the branch, in both directions: -100 iff the key was absent, -101 iff the caller held it, anything else iff another client held it. On a store the protocol produced, that last reply is a positive lease. |
| LockStore.ScriptPreservesHealthy | src/redilock.go:58-67 | After the script, every holder count is still between 1 and the int64 maximum, and every key still has a positive lease. A newly created key is never left without one. |
| LockStore.ScriptPreservesSoleHolders | src/redilock.go:58-67 | If every key has exactly one holder before the script runs, every key has exactly one holder after it. This is mutual exclusion at the store. |
| Handle.NewRedilock | src/redilock.go:26-46 | The handle is built iff PING succeeds. A fresh handle has `maxRetryCount = -1`, `retryMilliseconds = 1000`, a zero counter, no renewer, and the given key and connection parameters. |
| Handle.SetMaxRetryCount | src/redilock.go:49-55 | The call returns an error and leaves the handle unchanged iff `max < -1`. Otherwise it sets the limit to `max` and changes nothing else. |
| Handle.Reset | src/redilock.go:121-128 | The counter becomes 0 and the renewer is stopped. The configuration is unchanged. |
| Handle.UnLock | src/redilock.go:109-118 | The handle is reset even if DEL fails. DEL fails iff the store is unreachable. Otherwise the key is gone, whoever held it and however many times, and every other key is unchanged. |
| Handle.OperationsPreserveValid | src/redilock.go:49-54 | `SetMaxRetryCount`, `reset` and `UnLock` keep the limit at -1 or above and the retry interval positive. |
| Retry.Decide | src/redilock.go:85-104 | -100 means start the watchdog and -101 means return success, both leaving the counter alone. Any other reply means give up iff the limit is positive and the counter has reached it, and otherwise retry with the counter plus exactly 1. Under a positive limit, a retry never takes the counter past the limit. |
| Retry.ZeroLimitDecidesLikeUnbounded | src/redilock.go:97-99 | A limit of 0 makes the same decision as -1 on every counter and reply, and never gives up. |
| Locking.Attempt | src/redilock.go:76-104 | An unreachable store is a hard error. The key is acquired iff it was absent. Then the renewer starts, and with a positive lease the caller is the sole holder with count 1. Reentry happens iff the caller held the key with a count below the int64 maximum, and leaves the handle unchanged. Every success hands back exactly the store the script left. A held-elsewhere key fails iff the budget is spent, and otherwise sleeps with the counter plus 1. A caller count already at the int64 maximum returns the HINCRBY overflow error. |
| Locking.LockSpec | src/redilock.go:76-106 | The call makes at most one attempt per observation. The counter rises by exactly the number of attempts that did not return, so it is not reset on success. The configuration is unchanged, and the renewer runs afterwards iff it ran before or the call acquired a new key. With a positive limit and a counter within it, the counter stays within the limit, and the call returns within `limit - counter + 1` attempts. A retry-limit error means the positive limit has been reached. A nil return means the caller holds the key in the returned store: as sole holder with count 1 after a fresh acquisition with a positive lease, and as one of the holders after reentry. |
| Locking.Lock | src/redilock.go:71-106 | The loop computes exactly what the recursive `lock` computes, apart from the stack limit noted under "Left out". The time slept is the number of retries times the retry interval. Under a positive limit the counter never exceeds the limit. |
| Protocol.HeldElsewhereGivesUp | src/redilock.go:97-104 | Take a positive limit, with the key held elsewhere on every attempt. The call fails with the retry-limit error after exactly `limit - counter + 1` attempts, or after 1 attempt if the counter is already at or past the limit. The counter ends at the limit, or stays where it was if it was already past it. |
| Protocol.HeldElsewhereBlocksWithoutLimit | src/redilock.go:97-104 | With a limit of -1 or 0 and the key held elsewhere, the call never returns. Each attempt adds exactly 1 to the counter. |
| Protocol.LastAttemptDecides | src/redilock.go:78-104 | When `Lock` returns, its outcome and handle are exactly what one attempt gives on the observation that attempt saw, starting from the counter plus the retries made before it. With the `Attempt` contract and `Protocol.RetriesOnlyWhileHeldElsewhere`, this fixes every run. |
| Protocol.RetriesOnlyWhileHeldElsewhere | src/redilock.go:97-104 | `Lock` retries only while the key is held by another client. Every attempt that did not return found the key present without the caller among its holders. |
| Protocol.ZeroLimitRunsLikeUnbounded | src/redilock.go:97-104 | On every sequence of observations, a whole `Lock` run with limit 0 has the same outcome, attempts and counter as one with limit -1. |
| Protocol.ExhaustedBudgetCarriesOver | src/redilock.go:97-101 | After a retry-limit error, the next `Lock` on the same handle that finds the key held elsewhere fails on its first attempt, for any caller. |
| Protocol.SuccessfulRetriesConsumeBudget | src/redilock.go:86-101 | Retries spent by a `Lock` that then succeeded stay spent. A later `Lock` facing a held key gets only the rest of the budget. |
| Protocol.UnlockRestoresBudget | src/redilock.go:109-123 | After `UnLock`, a `Lock` facing a held key makes exactly `limit + 1` attempts before failing, whatever happened before. |
| Protocol.SuccessIsLastScript | src/redilock.go:78-95 | However many retries came first, a successful `Lock` returns exactly the store that its last attempt's script produced from the store that attempt observed. That script replied -100 for a fresh acquisition and -101 for reentry. So the lease the script set, and the rule that no other key changes, hold for what the caller gets back. |
| Protocol.LockPreservesHealthy | src/redilock.go:58-67 | Suppose every store the caller observes has counts of at least 1, a lease on every key and one holder per key. Then the store a successful `Lock` leaves behind has these properties too. |
| Protocol.AcquireThenReleaseRestoresStore | src/redilock.go:58-61 | `Lock` on a free key makes the caller sole holder with count 1 and starts the renewer. `UnLock` then gives back exactly the original store and a handle with a zero counter and no renewer. |
| Protocol.ReleaseIgnoresHolderAndCount | src/redilock.go:63-65 | Reentry raises the count by 1. A single `UnLock` from any handle on the same key then deletes the whole key, without checking the holder or the count. |

## Left out

- The Redis client and the network are left out. PING is reduced to a boolean, and each script run or DEL sees either `Unreachable` (a `ConnectionFailed` error, never retried) or a store.
- The `watchDog` goroutine and its ticker (src/redilock.go:131-148) are reduced to the handle's `renewing` flag. They involve background concurrency and timing, and the renew interval is computed in floating point. As written, a lease under 2 ms gives a zero interval, which makes `time.NewTicker` panic. This is not modelled.
- `time.Sleep` is reduced to the `sleptMs` total that `Lock` returns. The `log` and `fmt` output is left out.
- Leases do not count down, and keys do not expire by themselves. Between attempts, the observations carry whatever expiry and other clients did.
- Converting the `time.Duration` lease to milliseconds is left out. `ttlMs` is the already-truncated integer.
- Keys of another Redis type (the script would fail with WRONGTYPE) are left out, as is the range check Redis applies to the PEXPIRE argument. The store holds only hash entries.
- The shared handle has no synchronization, so several goroutines calling `Lock` and `UnLock` on it race. These races are left out. Every operation here takes and returns the handle as a value.
- `lock` retries by calling itself (src/redilock.go:104), and Go does not eliminate tail calls. Every retry therefore adds a stack frame. Under a limit of -1 or 0 with the key held elsewhere long enough, the goroutine's stack reaches the runtime's maximum and the process aborts with a fatal stack overflow. `Locking.LockSpec` and the loop `Locking.Lock` have no such limit and keep retrying.
- `currentRetryCount` is a `nat` and does not wrap around at the int64 limit. In practice the stack limit above is reached long before the 2^63 retries a wrap would take.
- `Lock` (src/redilock.go:71-73) only forwards to `lock`, so `Locking.Lock` models both.
- The test file src/redilock/redilock_test.go needs a live Redis server and real sleeps, and is not part of this model.

=== FILE: common.dfy ===
/** Failure values and small wrappers shared by every part of the lock model. */
module Common {

  /** The failures a Redilock operation hands back to its caller. */
  datatype Error =
    | ConnectionFailed                    // a store command did not complete (PING, script run, DEL)
    | IncrementOverflow                   // HINCRBY refused: the holder's count is already the largest int64
    | RetryLimitExceeded(clientNo: string) // the retry budget of the handle is spent
    | MaxRetryTooSmall                    // SetMaxRetryCount was given a value below -1

  datatype Option<+T> = None | Some(value: T)

  datatype Result<+T> = Ok(value: T) | Err(error: Error)
}

=== FILE: handle.dfy ===
/**
  The client-side lock handle: its configuration, its retry counter and
  whether its lease renewer is running, with the operations that configure
  and release it.
*/
module Handle {
  import opened Common
  import opened LockStore

  /** The retry limit meaning "no limit": a fresh handle's limit, and the
      smallest one SetMaxRetryCount accepts. */
  const UnboundedRetries: int := -1
  /** A fresh handle polls once a second. */
  const DefaultRetryMilliseconds: int := 1000

  /**
    The Redilock struct. The Redis client is reduced to the connection
    parameters; the watchdog ticker is reduced to whether a renewer runs.
  */
  datatype Handle = Handle(
    key: string,
    addr: string,
    db: int,
    password: string,
    maxRetryCount: int,
    retryMilliseconds: int,
    currentRetryCount: nat,
    renewing: bool)

  /** What every handle built by NewRedilock and SetMaxRetryCount satisfies.
      It is an invariant of the handle only: no operation needs it to run,
      since the source calls them on any handle. */
  predicate Valid(h: Handle) {
    h.maxRetryCount >= UnboundedRetries && h.retryMilliseconds > 0
  }

  /** The fields no lock attempt changes. */
  predicate SameConfig(a: Handle, b: Handle) {
    && a.key == b.key
    && a.addr == b.addr
    && a.db == b.db
    && a.password == b.password
    && a.maxRetryCount == b.maxRetryCount
    && a.retryMilliseconds == b.retryMilliseconds
  }

  /** Outcome of a call that mutates the handle and may return an error. */
  datatype Configured = Configured(handle: Handle, err: Option<Error>)

  /** Outcome of UnLock: the reset handle, and the store after DEL or the error. */
  datatype Released = Released(handle: Handle, result: Result<Store>)

  /** NewRedilock: defaults filled in, then a PING whose failure is the constructor's error. */
  function NewRedilock(key: string, addr: string, password: string, db: int, pingOk: bool): (r: Result<Handle>)
    ensures r.Ok? <==> pingOk
    ensures r.Err? ==> r.error == ConnectionFailed
    ensures r.Ok? ==>
              && r.value.key == key && r.value.addr == addr
              && r.value.password == password && r.value.db == db
              && r.value.maxRetryCount == UnboundedRetries
              && r.value.retryMilliseconds == DefaultRetryMilliseconds
              && r.value.currentRetryCount == 0
              && !r.value.renewing
              && Valid(r.value)
  {
    if !pingOk then Err(ConnectionFailed)
    else Ok(Handle(key, addr, db, password, UnboundedRetries, DefaultRetryMilliseconds, 0, false))
  }

  /** SetMaxRetryCount: anything below -1 is refused and the handle is left alone. */
  function SetMaxRetryCount(h: Handle, max: int): (r: Configured)
    ensures r.err.Some? <==> max < UnboundedRetries
    ensures r.err.Some? ==> r.err.value == MaxRetryTooSmall && r.handle == h
    ensures r.err.None? ==> r.handle == h.(maxRetryCount := max)
  {
    if max < UnboundedRetries then Configured(h, Some(MaxRetryTooSmall))
    else Configured(h.(maxRetryCount := max), None)
  }

  /** reset: the retry counter goes back to zero and the renewer stops. */
  function Reset(h: Handle): (h': Handle)
    ensures h'.currentRetryCount == 0
    ensures !h'.renewing
    ensures SameConfig(h', h)
  {
    h.(currentRetryCount := 0, renewing := false)
  }

  /**
    UnLock: reset the handle, then DEL the key whoever holds it and however
    many times it was entered. The reset happens even when DEL fails.
  */
  function UnLock(h: Handle, obs: Observation): (r: Released)
    ensures r.handle.currentRetryCount == 0 && !r.handle.renewing && SameConfig(r.handle, h)
    ensures r.result.Err? <==> obs.Unreachable?
    ensures r.result.Err? ==> r.result.error == ConnectionFailed
    ensures r.result.Ok? ==>
              && h.key !in r.result.value
              && (forall k :: k in obs.store && k != h.key ==> k in r.result.value && r.result.value[k] == obs.store[k])
              && (forall k :: k in r.result.value ==> k in obs.store)
  {
    var h' := Reset(h);
    match obs
    case Unreachable => Released(h', Err(ConnectionFailed))
    case Reachable(s) => Released(h', Ok(s - {h.key}))
  }

  /** Every configuring operation keeps a valid handle valid. */
  lemma OperationsPreserveValid(h: Handle, max: int, obs: Observation)
    requires Valid(h)
    ensures Valid(SetMaxRetryCount(h, max).handle)
    ensures Valid(Reset(h))
    ensures Valid(UnLock(h, obs).handle)
  {
  }
}

=== FILE: lock_store.dfy ===
/**
  The shared key-value store as the acquisition script sees it, and the script
  itself. The store runs the script atomically, so the script is one pure state
  transition from a store to a store and an integer reply.

  Time does not pass inside the model: an entry's expiry is the remaining
  time-to-live that PTTL would report at the moment the script runs.
*/
module LockStore {
  import opened Common

  /** Largest value a Redis hash field can be incremented to. */
  const MaxInt64: int := 0x7fff_ffff_ffff_ffff

  /** Script reply: the key was absent and is now held by the caller. */
  const AcquiredNew: int := -100
  /** Script reply: the caller already held the key and its count went up. */
  const AlreadyHeld: int := -101
  /** PTTL reply for a key that exists but has no time-to-live. */
  const NoExpiry: int := -1

  datatype Expiry = Persistent | ExpiresIn(remainingMs: nat)

  /** One lock key: a hash from holder identifier to reentrancy count, plus its lease. */
  datatype Entry = Entry(holders: map<string, int>, expiry: Expiry)

  type Store = map<string, Entry>

  /** What one round-trip to the store meets: no connection, or the store as it stands. */
  datatype Observation = Unreachable | Reachable(store: Store)

  /** The store after the script and the integer the script returned. */
  datatype Reply = Reply(store: Store, ret: int)

  predicate HeldBy(s: Store, key: string, clientNo: string) {
    key in s && clientNo in s[key].holders
  }

  predicate HeldByOther(s: Store, key: string, clientNo: string) {
    key in s && clientNo !in s[key].holders
  }

  /** The holders of `key` in `s`, or none when the key is absent. */
  function HoldersOf(s: Store, key: string): map<string, int> {
    if key in s then s[key].holders else map[]
  }

  /** An entry the protocol can leave behind: at least one holder, every
      count between 1 and the int64 maximum, and a live lease. */
  predicate HealthyEntry(e: Entry) {
    && |e.holders| > 0
    && (forall c :: c in e.holders ==> 1 <= e.holders[c] <= MaxInt64)
    && e.expiry.ExpiresIn?
    && e.expiry.remainingMs > 0
  }

  predicate Healthy(s: Store) {
    forall k :: k in s ==> HealthyEntry(s[k])
  }

  /** Every lock key names exactly one holder. */
  predicate SoleHolders(s: Store) {
    forall k :: k in s ==> |s[k].holders| == 1
  }

  /** PTTL on an existing key. */
  function Pttl(e: Entry): (ms: int)
    ensures ms >= NoExpiry
    ensures ms == NoExpiry <==> e.expiry.Persistent?
    ensures e.expiry.ExpiresIn? ==> ms == e.expiry.remainingMs
  {
    match e.expiry
    case Persistent => NoExpiry
    case ExpiresIn(remaining) => remaining
  }

  /** PEXPIRE on an existing key: a non-positive time-to-live deletes the key. */
  function Pexpire(s: Store, key: string, ttlMs: int): (s': Store)
    requires key in s
    ensures ttlMs <= 0 ==> key !in s'
    ensures ttlMs > 0 ==> key in s' && s'[key] == s[key].(expiry := ExpiresIn(ttlMs))
    ensures s' - {key} == s - {key}
  {
    if ttlMs <= 0 then s - {key}
    else s[key := s[key].(expiry := ExpiresIn(ttlMs))]
  }

  /**
    The acquisition script run on KEYS[1] = key with ARGV = [ttlMs, clientNo].
    Its three branches are: key absent (create with count 1 and a lease),
    caller already a holder (count + 1), anyone else (report the remaining lease).
  */
  function Script(s: Store, key: string, ttlMs: int, clientNo: string): (r: Result<Reply>)
    // absent key: created with the caller as sole holder and the lease set
    ensures key !in s ==> r.Ok? && r.value.ret == AcquiredNew
    ensures key !in s && ttlMs > 0 ==>
              key in r.value.store
              && r.value.store[key] == Entry(map[clientNo := 1], ExpiresIn(ttlMs))
    ensures key !in s && ttlMs <= 0 ==> r.value.store == s
    // caller already a holder: exactly one more, nobody else and the lease untouched
    ensures HeldBy(s, key, clientNo) ==> (r.Err? <==> s[key].holders[clientNo] >= MaxInt64)
    ensures HeldBy(s, key, clientNo) && r.Ok? ==>
              && r.value.ret == AlreadyHeld
              && key in r.value.store
              && r.value.store[key].expiry == s[key].expiry
              && r.value.store[key].holders.Keys == s[key].holders.Keys
              && r.value.store[key].holders[clientNo] == s[key].holders[clientNo] + 1
              && (forall c :: c in s[key].holders && c != clientNo ==>
                    r.value.store[key].holders[c] == s[key].holders[c])
    // somebody else holds it: nothing changes, the remaining lease comes back
    ensures HeldByOther(s, key, clientNo) ==> r == Ok(Reply(s, Pttl(s[key])))
    // the only failure is the count overflow, and only KEYS[1] is ever touched
    ensures r.Err? ==> r.error == IncrementOverflow
    ensures r.Ok? ==> r.value.store - {key} == s - {key}
  {
    if key !in s then
      // HSET on a missing key creates it without a time-to-live; PEXPIRE then sets one
      var created := s[key := Entry(map[clientNo := 1], Persistent)];
      Ok(Reply(Pexpire(created, key, ttlMs), AcquiredNew))
    else if clientNo in s[key].holders then
      var n := s[key].holders[clientNo];
      if n >= MaxInt64 then Err(IncrementOverflow)
      else Ok(Reply(s[key := s[key].(holders := s[key].holders[clientNo := n + 1])], AlreadyHeld))
    else
      Ok(Reply(s, Pttl(s[key])))
  }

  /** The reply alone tells the three branches apart: the sentinels can never
      be a remaining lease, and on a store the protocol produced the lease is positive. */
  lemma ReplyIdentifiesBranch(s: Store, key: string, ttlMs: int, clientNo: string)
    ensures var r := Script(s, key, ttlMs, clientNo);
      && (r.Ok? && r.value.ret == AcquiredNew <==> key !in s)
      && (r.Ok? && r.value.ret == AlreadyHeld <==>
            HeldBy(s, key, clientNo) && s[key].holders[clientNo] < MaxInt64)
      && (HeldByOther(s, key, clientNo) <==>
            r.Ok? && r.value.ret != AcquiredNew && r.value.ret != AlreadyHeld)
      && (Healthy(s) && HeldByOther(s, key, clientNo) ==> r.Ok? && r.value.ret > 0)
  {
  }

  /** The script keeps every entry healthy: counts stay at least 1 and every
      key it creates carries a lease. */
  lemma ScriptPreservesHealthy(s: Store, key: string, ttlMs: int, clientNo: string)
    requires Healthy(s)
    ensures var r := Script(s, key, ttlMs, clientNo);
      r.Ok? ==> Healthy(r.value.store)
  {
  }

  /** Mutual exclusion at the store: if every key has one holder before the
      script runs, every key has one holder after it. */
  lemma ScriptPreservesSoleHolders(s: Store, key: string, ttlMs: int, clientNo: string)
    requires SoleHolders(s)
    ensures var r := Script(s, key, ttlMs, clientNo);
      r.Ok? ==> SoleHolders(r.value.store)
  {
  }
}

=== FILE: locking.dfy ===
/**
  `lock`: run the acquisition script, then act on its reply. The source
  retries by calling itself after a sleep; here one attempt is a pure step,
  `LockSpec` is that recursion written out, and `Lock` is the same thing as a
  loop.

  The caller's view of the store over time is a sequence of observations, one
  per attempt: other clients and lease expiry may change the store between
  attempts. When the sequence runs out while `lock` is still retrying, the
  call has simply not returned yet (`Blocked`).
*/
module Locking {
  import opened Common
  import opened LockStore
  import opened Handle
  import opened Retry

  datatype LockStatus =
    | Acquired(store: Store)   // returned nil after creating the key; watchdog started
    | Reentered(store: Store)  // returned nil after raising the caller's count
    | Failed(error: Error)     // returned an error
    | Blocked                  // still sleeping and retrying

  /** What one run of `lock`'s body leads to. */
  datatype Step =
    | Returned(handle: Handle, status: LockStatus)
    | Slept(handle: Handle)

  /** The handle and status a `Lock` call ends with, and how many times it ran the script. */
  datatype LockRun = LockRun(handle: Handle, status: LockStatus, attempts: nat)

  /** The observation shows the key held, and not by this caller. */
  predicate HeldElsewhere(obs: Observation, key: string, clientNo: string) {
    obs.Reachable? && HeldByOther(obs.store, key, clientNo)
  }

  /** One run of `lock`'s body: the script, then the decision on its reply. */
  function Attempt(h: Handle, ttlMs: int, clientNo: string, obs: Observation): (st: Step)
    ensures st.Returned? ==> !st.status.Blocked?
    ensures obs.Unreachable? ==> st == Returned(h, Failed(ConnectionFailed))
    // a failing HINCRBY is the error `lock` returns, with the handle untouched
    ensures obs.Reachable? && HeldBy(obs.store, h.key, clientNo)
            && obs.store[h.key].holders[clientNo] >= MaxInt64 ==>
              st == Returned(h, Failed(IncrementOverflow))
    // a new key: success, and the watchdog is (re)started
    ensures st.Returned? && st.status.Acquired? <==> obs.Reachable? && h.key !in obs.store
    ensures st.Returned? && st.status.Acquired? ==>
              && st.handle == h.(renewing := true)
              && (ttlMs > 0 ==> HoldersOf(st.status.store, h.key) == map[clientNo := 1])
    // already ours: success, handle untouched
    ensures st.Returned? && st.status.Reentered? <==>
              obs.Reachable? && HeldBy(obs.store, h.key, clientNo)
              && obs.store[h.key].holders[clientNo] < MaxInt64
    ensures st.Returned? && st.status.Reentered? ==>
              st.handle == h && HeldBy(st.status.store, h.key, clientNo)
    // someone else's: fail iff the budget is spent, otherwise count one more retry
    ensures st.Returned? && st.status == Failed(RetryLimitExceeded(clientNo)) <==>
              HeldElsewhere(obs, h.key, clientNo) && BudgetSpent(h.maxRetryCount, h.currentRetryCount)
    ensures st.Slept? <==>
              HeldElsewhere(obs, h.key, clientNo) && !BudgetSpent(h.maxRetryCount, h.currentRetryCount)
    ensures st.Slept? ==> st.handle == h.(currentRetryCount := h.currentRetryCount + 1)
    ensures st.Returned? && !st.status.Acquired? ==> st.handle == h
    // a success hands back exactly the store the script left, so its lease and frame carry over
    ensures st.Returned? && (st.status.Acquired? || st.status.Reentered?) ==>
              obs.Reachable?
              && Script(obs.store, h.key, ttlMs, clientNo)
                 == Ok(Reply(st.status.store, if st.status.Acquired? then AcquiredNew else AlreadyHeld))
  {
    match obs
    case Unreachable => Returned(h, Failed(ConnectionFailed))
    case Reachable(s) =>
      match Script(s, h.key, ttlMs, clientNo)
      case Err(e) => Returned(h, Failed(e))
      case Ok(reply) =>
        match Decide(h.maxRetryCount, h.currentRetryCount, reply.ret)
        case Acquire => Returned(h.(renewing := true), Acquired(reply.store))
        case Reenter => Returned(h, Reentered(reply.store))
        case GiveUp => Returned(h, Failed(RetryLimitExceeded(clientNo)))
        case Retry(next) => Slept(h.(currentRetryCount := next))
  }

  /**
    `lock` as the source writes it: one attempt, and on a retry the same call
    again on the rest of the observations. Each attempt that does not return
    costs exactly one unit of the retry counter, and the counter is never reset
    here, not even on success.
  */
  function LockSpec(h: Handle, ttlMs: int, clientNo: string, env: seq<Observation>): (r: LockRun)
    ensures r.attempts <= |env|
    ensures r.status.Blocked? ==> r.attempts == |env|
    ensures !r.status.Blocked? ==> r.attempts >= 1
    ensures SameConfig(r.handle, h)
    ensures r.handle.renewing == (h.renewing || r.status.Acquired?)
    ensures r.handle.currentRetryCount ==
              h.currentRetryCount + (if r.status.Blocked? then r.attempts else r.attempts - 1)
    // a positive limit is respected and bounds how long the call can block
    ensures h.maxRetryCount > 0 && h.currentRetryCount <= h.maxRetryCount ==>
              r.handle.currentRetryCount <= h.maxRetryCount
    ensures (h.maxRetryCount > 0 && h.currentRetryCount <= h.maxRetryCount
             && |env| > h.maxRetryCount - h.currentRetryCount) ==> !r.status.Blocked?
    // a nil return means the caller holds the key, in the store the last attempt's script left
    ensures r.status.Acquired? && ttlMs > 0 ==> HoldersOf(r.status.store, h.key) == map[clientNo := 1]
    ensures r.status.Reentered? ==> HeldBy(r.status.store, h.key, clientNo)
    // the retry-limit error means a positive limit that has been reached
    ensures r.status == Failed(RetryLimitExceeded(clientNo)) ==>
              BudgetSpent(h.maxRetryCount, r.handle.currentRetryCount)
    decreases |env|
  {
    if |env| == 0 then LockRun(h, Blocked, 0)
    else
      match Attempt(h, ttlMs, clientNo, env[0])
      case Returned(h', status) => LockRun(h', status, 1)
      case Slept(h') =>
        var rest := LockSpec(h', ttlMs, clientNo, env[1..]);
        LockRun(rest.handle, rest.status, rest.attempts + 1)
  }

  /**
    `Lock`, with the source's tail call turned into a loop. `sleptMs` is the
    time spent in the fixed-interval sleeps between attempts.
  */
  method Lock(h: Handle, ttlMs: int, clientNo: string, env: seq<Observation>)
    returns (h': Handle, status: LockStatus, attempts: nat, sleptMs: int)
    ensures LockRun(h', status, attempts) == LockSpec(h, ttlMs, clientNo, env)
    ensures sleptMs == (h'.currentRetryCount - h.currentRetryCount) * h.retryMilliseconds
    ensures h.maxRetryCount > 0 && h.currentRetryCount <= h.maxRetryCount ==>
              h'.currentRetryCount <= h.maxRetryCount
  {
    var cur := h;
    var i := 0;
    sleptMs := 0;
    while i < |env|
      invariant 0 <= i <= |env|
      invariant SameConfig(cur, h) && cur.currentRetryCount == h.currentRetryCount + i
      invariant sleptMs == i * h.retryMilliseconds
      invariant var rest := LockSpec(cur, ttlMs, clientNo, env[i..]);
        LockSpec(h, ttlMs, clientNo, env) == LockRun(rest.handle, rest.status, rest.attempts + i)
      decreases |env| - i
    {
      assert env[i..][0] == env[i] && env[i..][1..] == env[i + 1..];
      match Attempt(cur, ttlMs, clientNo, env[i])
      case Returned(hr, st) =>
        return hr, st, i + 1, sleptMs;
      case Slept(hs) =>
        cur := hs;
        sleptMs := sleptMs + h.retryMilliseconds;
        i := i + 1;
    }
    return cur, Blocked, i, sleptMs;
  }
}

=== FILE: protocol.dfy ===
/**
  Properties of whole `Lock`/`UnLock` runs: how the retry budget behaves over
  one call and across calls, what a successful call leaves in the store, and
  that release is global.
*/
module Protocol {
  import opened Common
  import opened LockStore
  import opened Handle
  import opened Retry
  import opened Locking

  /** Every attempt finds the key held by somebody else. */
  predicate HeldElsewhereThroughout(env: seq<Observation>, key: string, clientNo: string) {
    forall j :: 0 <= j < |env| ==> HeldElsewhere(env[j], key, clientNo)
  }

  /** Every store the caller gets to see is one the protocol could have produced. */
  predicate HealthyThroughout(env: seq<Observation>) {
    forall j :: 0 <= j < |env| ==> env[j].Reachable? ==> Healthy(env[j].store) && SoleHolders(env[j].store)
  }

  /**
    With a positive limit and the key held by somebody else on every attempt,
    `Lock` gives up with the retry-limit error after exactly the attempts the
    budget left allows, and the counter ends at the limit (or stays above it).
  */
  lemma {:induction false} HeldElsewhereGivesUp(h: Handle, ttlMs: int, clientNo: string, env: seq<Observation>)
    requires h.maxRetryCount > 0
    requires |env| > 0 && |env| > h.maxRetryCount - h.currentRetryCount
    requires HeldElsewhereThroughout(env, h.key, clientNo)
    ensures var r := LockSpec(h, ttlMs, clientNo, env);
      && r.status == Failed(RetryLimitExceeded(clientNo))
      && r.attempts == (if h.currentRetryCount >= h.maxRetryCount then 1
                        else h.maxRetryCount - h.currentRetryCount + 1)
      && r.handle == (if h.currentRetryCount >= h.maxRetryCount then h
                      else h.(currentRetryCount := h.maxRetryCount))
    decreases |env|
  {
    assert HeldElsewhere(env[0], h.key, clientNo);
    if h.currentRetryCount < h.maxRetryCount {
      var h' := h.(currentRetryCount := h.currentRetryCount + 1);
      assert Attempt(h, ttlMs, clientNo, env[0]) == Slept(h');
      assert HeldElsewhereThroughout(env[1..], h'.key, clientNo) by {
        forall j | 0 <= j < |env[1..]|
          ensures HeldElsewhere(env[1..][j], h'.key, clientNo)
        {
          assert env[1..][j] == env[j + 1];
        }
      }
      HeldElsewhereGivesUp(h', ttlMs, clientNo, env[1..]);
    }
  }

  /**
    With a limit of -1 or 0 and the key held by somebody else on every attempt,
    `Lock` never returns: it retries once per observation, one counter unit each.
  */
  lemma {:induction false} HeldElsewhereBlocksWithoutLimit(h: Handle, ttlMs: int, clientNo: string, env: seq<Observation>)
    requires h.maxRetryCount <= 0
    requires HeldElsewhereThroughout(env, h.key, clientNo)
    ensures LockSpec(h, ttlMs, clientNo, env) ==
              LockRun(h.(currentRetryCount := h.currentRetryCount + |env|), Blocked, |env|)
    decreases |env|
  {
    if |env| > 0 {
      assert HeldElsewhere(env[0], h.key, clientNo);
      var h' := h.(currentRetryCount := h.currentRetryCount + 1);
      assert Attempt(h, ttlMs, clientNo, env[0]) == Slept(h');
      assert HeldElsewhereThroughout(env[1..], h'.key, clientNo) by {
        forall j | 0 <= j < |env[1..]|
          ensures HeldElsewhere(env[1..][j], h'.key, clientNo)
        {
          assert env[1..][j] == env[j + 1];
        }
      }
      HeldElsewhereBlocksWithoutLimit(h', ttlMs, clientNo, env[1..]);
    }
  }

  /**
    `Lock` keeps retrying only while somebody else holds the key: every
    attempt that did not return found the key held, and not by the caller.
  */
  lemma {:induction false} RetriesOnlyWhileHeldElsewhere(h: Handle, ttlMs: int, clientNo: string, env: seq<Observation>)
    ensures var r := LockSpec(h, ttlMs, clientNo, env);
      forall j :: 0 <= j < (if r.status.Blocked? then r.attempts else r.attempts - 1) ==>
        HeldElsewhere(env[j], h.key, clientNo)
    decreases |env|
  {
    if |env| > 0 {
      match Attempt(h, ttlMs, clientNo, env[0])
      case Returned(_, _) =>
      case Slept(h') =>
        RetriesOnlyWhileHeldElsewhere(h', ttlMs, clientNo, env[1..]);
        var r := LockSpec(h, ttlMs, clientNo, env);
        forall j | 0 <= j < (if r.status.Blocked? then r.attempts else r.attempts - 1)
          ensures HeldElsewhere(env[j], h.key, clientNo)
        {
          if j > 0 {
            assert env[1..][j - 1] == env[j];
          }
        }
    }
  }

  /**
    The attempt a `Lock` call returns from decides its outcome: the call ends
    exactly as that one attempt does, run on the observation it saw, with the
    counter raised by the retries before it.
  */
  lemma {:induction false} LastAttemptDecides(h: Handle, ttlMs: int, clientNo: string, env: seq<Observation>)
    ensures var r := LockSpec(h, ttlMs, clientNo, env);
      !r.status.Blocked? ==>
        Attempt(h.(currentRetryCount := h.currentRetryCount + r.attempts - 1), ttlMs, clientNo, env[r.attempts - 1])
        == Returned(r.handle, r.status)
    decreases |env|
  {
    if |env| > 0 {
      match Attempt(h, ttlMs, clientNo, env[0])
      case Returned(_, _) =>
      case Slept(h') =>
        LastAttemptDecides(h', ttlMs, clientNo, env[1..]);
        var rest := LockSpec(h', ttlMs, clientNo, env[1..]);
        if !rest.status.Blocked? {
          assert env[1..][rest.attempts - 1] == env[rest.attempts];
        }
    }
  }

  /** A limit of 0 runs `Lock` exactly as the unbounded limit -1 does. */
  lemma {:induction false} ZeroLimitRunsLikeUnbounded(h: Handle, ttlMs: int, clientNo: string, env: seq<Observation>)
    requires h.maxRetryCount == 0
    ensures var a := LockSpec(h, ttlMs, clientNo, env);
      var b := LockSpec(h.(maxRetryCount := UnboundedRetries), ttlMs, clientNo, env);
      a.status == b.status && a.attempts == b.attempts
      && a.handle == b.handle.(maxRetryCount := 0)
    decreases |env|
  {
    if |env| > 0 {
      var hu := h.(maxRetryCount := UnboundedRetries);
      match Attempt(h, ttlMs, clientNo, env[0])
      case Returned(_, _) =>
      case Slept(h') =>
        assert Attempt(hu, ttlMs, clientNo, env[0]) == Slept(h'.(maxRetryCount := UnboundedRetries));
        ZeroLimitRunsLikeUnbounded(h', ttlMs, clientNo, env[1..]);
    }
  }

  /**
    The counter is not reset when `Lock` returns: after a retry-limit error,
    the next `Lock` on the same handle that finds the key held elsewhere fails
    on its first attempt, whoever calls it.
  */
  lemma ExhaustedBudgetCarriesOver(h: Handle, ttlMs: int, clientNo: string, env: seq<Observation>,
                                   ttlMs2: int, clientNo2: string, env2: seq<Observation>)
    requires LockSpec(h, ttlMs, clientNo, env).status == Failed(RetryLimitExceeded(clientNo))
    requires |env2| > 0 && HeldElsewhere(env2[0], h.key, clientNo2)
    ensures var h1 := LockSpec(h, ttlMs, clientNo, env).handle;
      LockSpec(h1, ttlMs2, clientNo2, env2) == LockRun(h1, Failed(RetryLimitExceeded(clientNo2)), 1)
  {
  }

  /**
    Retries spent by a `Lock` that then succeeded stay spent: a second `Lock`
    facing a held key gets only what is left of the budget.
  */
  lemma SuccessfulRetriesConsumeBudget(h: Handle, ttlMs: int, clientNo: string, env: seq<Observation>,
                                       ttlMs2: int, clientNo2: string, env2: seq<Observation>)
    requires h.maxRetryCount > 0 && h.currentRetryCount == 0
    requires LockSpec(h, ttlMs, clientNo, env).status.Acquired?
          || LockSpec(h, ttlMs, clientNo, env).status.Reentered?
    requires |env2| > h.maxRetryCount
    requires HeldElsewhereThroughout(env2, h.key, clientNo2)
    ensures var first := LockSpec(h, ttlMs, clientNo, env);
      var second := LockSpec(first.handle, ttlMs2, clientNo2, env2);
      && second.status == Failed(RetryLimitExceeded(clientNo2))
      && second.attempts == h.maxRetryCount - (first.attempts - 1) + 1
  {
    var first := LockSpec(h, ttlMs, clientNo, env);
    HeldElsewhereGivesUp(first.handle, ttlMs2, clientNo2, env2);
  }

  /**
    `UnLock` gives the handle its whole budget back: whatever happened before,
    a `Lock` facing a held key afterwards makes the limit's worth of retries.
  */
  lemma UnlockRestoresBudget(h: Handle, obs: Observation, ttlMs: int, clientNo: string, env: seq<Observation>)
    requires h.maxRetryCount > 0
    requires |env| > h.maxRetryCount
    requires HeldElsewhereThroughout(env, h.key, clientNo)
    ensures var r := LockSpec(UnLock(h, obs).handle, ttlMs, clientNo, env);
      r.status == Failed(RetryLimitExceeded(clientNo)) && r.attempts == h.maxRetryCount + 1
  {
    HeldElsewhereGivesUp(UnLock(h, obs).handle, ttlMs, clientNo, env);
  }

  /**
    A successful `Lock` hands back exactly the store its last attempt's script
    left: the reply was -100 or -101 on the store that attempt observed, so the
    lease set there and the untouched other keys carry over to the caller.
  */
  lemma {:induction false} SuccessIsLastScript(h: Handle, ttlMs: int, clientNo: string, env: seq<Observation>)
    ensures var r := LockSpec(h, ttlMs, clientNo, env);
      (r.status.Acquired? || r.status.Reentered?) ==>
        && env[r.attempts - 1].Reachable?
        && Script(env[r.attempts - 1].store, h.key, ttlMs, clientNo)
           == Ok(Reply(r.status.store, if r.status.Acquired? then AcquiredNew else AlreadyHeld))
    decreases |env|
  {
    if |env| > 0 {
      match Attempt(h, ttlMs, clientNo, env[0])
      case Returned(_, _) =>
      case Slept(h') =>
        SuccessIsLastScript(h', ttlMs, clientNo, env[1..]);
        var rest := LockSpec(h', ttlMs, clientNo, env[1..]);
        if rest.status.Acquired? || rest.status.Reentered? {
          assert env[1..][rest.attempts - 1] == env[rest.attempts];
        }
    }
  }

  /**
    On stores the protocol could have produced, whatever a successful `Lock`
    leaves behind is again such a store: counts at least 1, a lease on every
    key, one holder per key.
  */
  lemma {:induction false} LockPreservesHealthy(h: Handle, ttlMs: int, clientNo: string, env: seq<Observation>)
    requires HealthyThroughout(env)
    ensures var r := LockSpec(h, ttlMs, clientNo, env);
      (r.status.Acquired? || r.status.Reentered?) ==>
        Healthy(r.status.store) && SoleHolders(r.status.store)
    decreases |env|
  {
    if |env| > 0 {
      assert env[0].Reachable? ==> Healthy(env[0].store) && SoleHolders(env[0].store);
      match Attempt(h, ttlMs, clientNo, env[0])
      case Returned(_, _) =>
        if env[0].Reachable? {
          ScriptPreservesHealthy(env[0].store, h.key, ttlMs, clientNo);
          ScriptPreservesSoleHolders(env[0].store, h.key, ttlMs, clientNo);
        }
      case Slept(h') =>
        assert HealthyThroughout(env[1..]) by {
          forall j | 0 <= j < |env[1..]| && env[1..][j].Reachable?
            ensures Healthy(env[1..][j].store) && SoleHolders(env[1..][j].store)
          {
            assert env[1..][j] == env[j + 1];
          }
        }
        LockPreservesHealthy(h', ttlMs, clientNo, env[1..]);
    }
  }

  /**
    Lock on a free key followed by UnLock is a round trip: the store comes
    back exactly as it was, and the handle is back to a zero counter with no
    renewer.
  */
  lemma AcquireThenReleaseRestoresStore(h: Handle, ttlMs: int, clientNo: string, s: Store)
    requires h.key !in s && ttlMs > 0
    ensures var locked := LockSpec(h, ttlMs, clientNo, [Reachable(s)]);
      && locked.status.Acquired?
      && locked.handle.renewing
      && HoldersOf(locked.status.store, h.key) == map[clientNo := 1]
      && var released := UnLock(locked.handle, Reachable(locked.status.store));
         released.result == Ok(s)
         && released.handle == h.(currentRetryCount := 0, renewing := false)
  {
    var locked := LockSpec(h, ttlMs, clientNo, [Reachable(s)]);
    assert [Reachable(s)][0] == Reachable(s);
    var s' := locked.status.store;
    assert s' - {h.key} == s - {h.key} == s;
  }

  /**
    Release is global: a key entered several times by one holder is removed by
    a single UnLock, from any handle on the same key, without looking at who
    holds it or how often.
  */
  lemma ReleaseIgnoresHolderAndCount(h: Handle, other: Handle, ttlMs: int, clientNo: string, s: Store)
    requires other.key == h.key
    requires HeldBy(s, h.key, clientNo) && s[h.key].holders[clientNo] < MaxInt64
    ensures var again := LockSpec(h, ttlMs, clientNo, [Reachable(s)]);
      && again.status.Reentered?
      && again.status.store[h.key].holders[clientNo] == s[h.key].holders[clientNo] + 1
      && UnLock(other, Reachable(again.status.store)).result == Ok(s - {h.key})
  {
  }
}

=== FILE: retry.dfy ===
/** The decision `lock` takes after each run of the acquisition script. */
module Retry {
  import opened LockStore

  datatype Decision =
    | Acquire           // fresh acquisition: start the watchdog and return
    | Reenter           // reentrant acquisition: return, the watchdog is left as it is
    | GiveUp            // the retry budget is spent: return the retry-limit error
    | Retry(next: nat)  // sleep, then try again with the counter set to `next`

  /** True when the handle has a positive limit and has used all of it. A limit
      of 0 is not positive, so it never runs out, exactly like -1. */
  predicate BudgetSpent(maxRetryCount: int, currentRetryCount: nat) {
    maxRetryCount > 0 && currentRetryCount >= maxRetryCount
  }

  /** One step of `lock` given the handle's limit and counter and the script's reply. */
  function Decide(maxRetryCount: int, currentRetryCount: nat, ret: int): (d: Decision)
    ensures d == Acquire <==> ret == AcquiredNew
    ensures d == Reenter <==> ret == AlreadyHeld
    ensures d == GiveUp <==>
              ret != AcquiredNew && ret != AlreadyHeld && BudgetSpent(maxRetryCount, currentRetryCount)
    ensures d.Retry? <==>
              ret != AcquiredNew && ret != AlreadyHeld && !BudgetSpent(maxRetryCount, currentRetryCount)
    ensures d.Retry? ==> d.next == currentRetryCount + 1
    ensures d.Retry? && maxRetryCount > 0 ==> d.next <= maxRetryCount
  {
    if ret == AcquiredNew then Acquire
    else if ret == AlreadyHeld then Reenter
    else if BudgetSpent(maxRetryCount, currentRetryCount) then GiveUp
    else Retry(currentRetryCount + 1)
  }

  /** A limit of 0 decides exactly like -1: it never gives up. */
  lemma ZeroLimitDecidesLikeUnbounded(currentRetryCount: nat, ret: int)
    ensures Decide(0, currentRetryCount, ret) == Decide(-1, currentRetryCount, ret)
    ensures Decide(0, currentRetryCount, ret) != GiveUp
  {
  }
}
